=== FILE: README.md ===
# SuperRun platformer core in Dafny

A model of the logic in `main.py` of the SuperRun prototype:

- **PlayerController** (`player_controller.dfy`): the player sprite's state
  (walk-cycle cursor, facing, vertical velocity, on-ground flag, rectangle
  position, displayed image) and `Player.update` as a pure
  `Step(player, keys)`. `Step` is the composition of the update's phases in
  source order: `Horizontal` (left/right/stand, including `walk_animation`),
  `Jump`, `Fall` (gravity, then the move), `VerticalImage`, `FaceImage` (the
  flip when facing left) and `GroundClamp`. Because later phases overwrite
  earlier choices, the order is part of the model. The lemmas describe one
  frame without reference to that order, using only the state before the
  frame and the keys held.
- **PlayerRuns** (`player_runs.dfy`): `Run`, the update applied once per
  frame over a sequence of key states, and what holds after any number of
  frames.
- **TileCompositor** (`tile_compositor.dfy`): the source rectangle computed
  by `get_tile`, and the ordered list of positions at which
  `create_background` stamps the tile. Python's `range` is modelled as
  `PyRange`. `CreateBackground` is written as the nested loops of the
  source and proved equal to the functional `BackgroundStamps`.

The displayed image is a `Pose` (`Stand`, `JumpUp`, `JumpDown` or
`Walk(i)`) plus a `mirrored` flag. Every horizontal flip toggles the flag.
Keys enter as a `Keys(left, right, up)` parameter of each frame. The
constants are those of the source: speed 5, gravity 0.5, jump speed -10,
viewport height 720, five walk frames, and a 32-pixel background grid.
Positions and velocities are `real`. The velocity is a Python float in the
source, and its values (multiples of 0.5) are exact binary fractions, so the
velocity arithmetic is modelled faithfully. Positions are an abstraction:
the source's rectangle holds integers, while the model adds the velocity to
`bottom` exactly (see "## Left out").

Behaviour of the code that the model keeps, and that the lemmas make visible:

- The image is chosen from the sign of the velocity after gravity and before
  the ground clamp. A player at rest gains 0.5 of velocity before the clamp
  can remove it, so it shows the jump-down image (`RestingShowsJumpDown`). The stand image is shown only in a frame whose
  velocity after gravity is exactly zero.
- Walking left flips the walk frame twice: once in `walk_animation` and once
  more at the end of `update`. A walk frame is therefore never shown mirrored
  (`StepImage`, `WalkingLeftUnmirrored`).
- Gravity is added in the same update that starts a jump. The take-off frame
  therefore ends with velocity -9.5, and the rectangle has already moved up
  by 9.5 in exact arithmetic (`TakeOff`). No frame ever ends at velocity -10.
- The constructor sets the on-ground flag wherever the player is placed, so
  a player placed at or above the ground line can start a jump in mid-air in
  any frame before it first jumps or lands, including the first
  (`SpawnCanJump`). Only a jump or the ground clamp changes the flag (`Step`,
  `OnlyClampGrounds`), so a player spawned in mid-air stays "on the ground"
  while it falls.
- `get_tile` takes the region at `(x*width, y*height)`: the vertical offset
  is `y*height`.
- The background grid steps by the constant 32 whatever the tile's size. The
  game stamps a 200×200 tile, so every pixel is covered (`NoGaps`) but
  neighbouring stamps overlap and the later blit wins (`WideTileOverlaps`,
  `TallTileOverlaps`). A 32×32 tile covers each pixel exactly once
  (`ExactTiling`). A tile narrower or shorter than 32 leaves gaps
  (`NarrowTileLeavesGap`, `ShortTileLeavesGap`). So, on a background larger
  than one grid cell each way, only a 32×32 tile tiles the surface exactly.
- The walk-cycle lookup uses Python list indexing, which also accepts
  indices -5 to -1. `WalkAnimation` requires exactly that range. `Step`
  requires it only when a horizontal key is held. The constructor's cursor
  0 and every later cursor lie in 0..4 (`StepKeepsCursor`, `Run`).

## Model

| member | source | states |
|---|---|---|
| PlayerController.NewPlayer | main.py:68-85 | A new player has walk cursor 0, faces right, is on the ground with zero velocity, and shows the unmirrored stand image at the position the caller gives. |
| PlayerController.Flip | main.py:122-124 | A horizontal flip keeps the picture and toggles its orientation. |
| PlayerController.FlipInvolution | main.py:133-135 | Flipping twice restores the image, and a single flip always changes it. |
| PlayerController.Move | main.py:87-90 | The rectangle is translated by exactly (dx, dy), and nothing else about the player changes. |
| PlayerController.WalkAnimation | main.py:132-140 | Shows walk frame `index` (with Python's negative-index wrap), mirrored exactly when facing left. For a cursor in 0..4 it advances the cursor by one modulo 5, and a negative cursor goes up by one. Nothing else changes. |
| PlayerController.WalkCycleReturns | main.py:137-140 | Five walk-animation calls bring an in-range cursor back to where it started. |
| PlayerController.Horizontal | main.py:95-105 | Phase 1 of a frame. x moves by -5 with left, by +5 with right alone, and by 0 otherwise. Facing becomes left with left, right with right alone, and is otherwise kept. With a key held the walk frame `old cursor` is shown, mirrored iff left is held. With no key the unmirrored stand image is shown and the cursor is kept. Velocity, on-ground and bottom are untouched. `StepHorizontal` lifts this to the whole frame. |
| PlayerController.Jump | main.py:107-110 | Phase 2. The player leaves the ground iff up is held while on the ground, and only then is the velocity set to -10. Nothing else changes. |
| PlayerController.Fall | main.py:112-114 | Phase 3. The velocity grows by exactly 0.5, and bottom then moves by the new velocity (exact addition). Nothing else changes. |
| PlayerController.VerticalImage | main.py:116-120 | Phase 4. A negative velocity shows the unmirrored jump-up image, and a positive one the unmirrored jump-down image. At zero velocity nothing changes. Only the image can change. |
| PlayerController.FaceImage | main.py:122-124 | Phase 5. The pose is kept, and the mirrored flag is toggled iff facing left. Only the image can change. |
| PlayerController.GroundClamp | main.py:126-130 | Phase 6. Afterwards bottom <= 720 and never lower on screen than before. Below the ground line, bottom becomes 720, the velocity 0 and the player grounded; otherwise nothing changes. Only bottom, velocity and on-ground can change. |
| PlayerController.AfterGravity | main.py:95-114 | Phases 1 to 3. The velocity equals the order-free `VelocityAfterGravity` (-9.5 after a jump, otherwise old + 0.5), bottom has moved by it, the player is grounded iff it was and up was not held, and x has moved by the frame's displacement. |
| PlayerController.Step | main.py:92-130 | One whole update, the six phases in source order. Its contract states the frame without reference to that order: bottom <= 720; x moved by -5, +5 or 0; the pose is the order-free `PoseShown`; the image is mirrored iff facing left and not a walk frame; grounded iff the clamp fired or it was grounded without up; the cursor invariant is kept. `StepHorizontal`, `StepVertical` and `StepImage` give the remaining detail. |
| PlayerController.AfterGravityVelocity | main.py:107-114 | After gravity the velocity is jump speed plus gravity (-9.5) when a jump fires, and otherwise the previous velocity plus gravity. The rectangle has moved down by that velocity. |
| PlayerController.StepHorizontal | main.py:95-105 | Left moves 5 left and faces left. Right alone moves 5 right and faces right. With neither key, position, facing and cursor are unchanged. With a key held, the cursor advances by one modulo 5. |
| PlayerController.LeftTakesPrecedence | main.py:96-103 | While left is held, holding right as well changes nothing about the frame. |
| PlayerController.StepKeepsCursor | main.py:132-140 | Every frame keeps the walk cursor within 0..4. |
| PlayerController.StepVertical | main.py:107-130 | After every frame bottom <= 720, so the sprite is never below the ground line. When the clamp fires, the bottom is exactly 720, the velocity is 0 and the player is on the ground. Otherwise velocity and height are exactly what gravity gave, and the player is on the ground iff it was and did not jump. |
| PlayerController.OnlyClampGrounds | main.py:108-130 | A player in the air becomes grounded only through the clamp. The player ends the frame grounded iff the clamp fired, or it was grounded and up was not held. |
| PlayerController.TakeOff | main.py:108-130 | A jump from bottom <= 720 cannot trigger the clamp in the same frame. The frame ends with velocity -9.5, moved up 9.5, airborne, showing the jump-up image, mirrored iff facing left. |
| PlayerController.SpawnCanJump | main.py:85 | A new player counts as on the ground wherever it is placed. Placed at or above the ground line (bottom <= 720), up in its first frame starts a jump: the frame ends at velocity -9.5 and, in exact arithmetic, 9.5 higher. |
| PlayerController.UpInAirIgnored | main.py:108-110 | While airborne, holding up has no effect at all on the frame. |
| PlayerController.StepImage | main.py:116-124 | The pose shown depends on the velocity after gravity and before the clamp: below 0 shows jump-up, above 0 shows jump-down. At exactly 0 the pose is the horizontal phase's choice: stand with no key, otherwise walk frame `old cursor`. Stand and jump images are mirrored iff facing left. Walk frames are never mirrored. |
| PlayerController.RestingShowsJumpDown | main.py:112-130 | A player with non-negative velocity whose jump does not fire shows the jump-down image. This includes a player resting on the ground. |
| PlayerController.WalkingLeftUnmirrored | main.py:122-135 | When walking left with zero velocity after gravity, the player faces left but shows the walk frame unmirrored, because of the double flip. |
| PlayerRuns.Run | main.py:92-130 | Over any sequence of frames the walk cursor stays within 0..4. After at least one frame bottom <= 720. |
| PlayerRuns.RunCursor | main.py:132-140 | After any run, the cursor equals the start cursor plus the number of frames with a horizontal key held, modulo 5. |
| PlayerRuns.RunPosition | main.py:95-103 | After any run, the horizontal position equals the start position plus the sum of the frames' displacements (-5, +5 or 0). |
| PlayerRuns.FreeFall | main.py:107-130 | An airborne player that never lands gains exactly 0.5 of velocity per frame, whatever keys are held, and stays airborne. |
| TileCompositor.SourceRect | main.py:36-40 | The extracted region is width by height. Its position is stated by `SourceRectPixels`. |
| TileCompositor.SourceRectPixels | main.py:36-40 | For positive tile sizes, a pixel lies in the region of tile (x, y) iff its grid coordinates are (x, y). So the tiles of a tileset neither overlap nor leave gaps. |
| TileCompositor.SourceRectRoundTrip | main.py:36-40 | The tile coordinates are recovered from the region's corner by division. |
| TileCompositor.PyRange | main.py:46-47 | Python's `range(start, stop, step)` for a positive step. It has ceil((stop-start)/step) elements (none when stop <= start), and a non-empty range starts at `start`. `PyRangeShape` and `PyRangeMembers` give every element. |
| TileCompositor.PyRangeShape | main.py:46-47 | `range(start, stop, step)` has ceil((stop-start)/step) elements (or none), and element i is start + i*step. |
| TileCompositor.PyRangeMembers | main.py:46-47 | A value is in the range iff it lies in [start, stop) on the step grid. |
| TileCompositor.BackgroundStamps | main.py:43-49 | The stamp positions of `create_background` in blit order: rows of `range(0, height, 32)`, each over `range(0, width, 32)`. It holds ceil(width/32) * ceil(height/32) stamps. `BackgroundAt`, `BackgroundMembers` and `BackgroundOrdered` state where and in which order. |
| TileCompositor.CreateBackground | main.py:43-49 | The nested loops stamp exactly the positions `BackgroundStamps` lists, in the same order. |
| TileCompositor.BackgroundCount | main.py:43-49 | There are ceil(width/32) * ceil(height/32) stamps (zero for a non-positive dimension). |
| TileCompositor.BackgroundAt | main.py:43-49 | Stamp i is at (32 * (i mod cols), 32 * (i div cols)), where cols = ceil(width/32). This is row-major order. |
| TileCompositor.BackgroundMembers | main.py:26-49 | (x, y) is stamped iff 0 <= x < width, 0 <= y < height, and both are multiples of 32. |
| TileCompositor.BackgroundOrdered | main.py:46-48 | Stamps come in strict row-major order (rows top to bottom, each left to right), so no position is stamped twice. |
| TileCompositor.NoGaps | main.py:43-49 | With a tile at least 32×32, every pixel of the background lies under the stamp of its grid cell. |
| TileCompositor.ExactTiling | main.py:43-49 | With a 32×32 tile, each pixel is covered by exactly one stamp: the one of its grid cell. |
| TileCompositor.NarrowTileLeavesGap | main.py:43-49 | With a tile narrower than 32, no stamp covers any background pixel (tileW, py) with 0 <= py < height: the whole column right after the first tile is left uncovered. |
| TileCompositor.ShortTileLeavesGap | main.py:43-49 | With a tile shorter than 32, no stamp covers any background pixel (px, tileH) with 0 <= px < width: the whole row right below the first tile is left uncovered. |
| TileCompositor.WideTileOverlaps | main.py:43-49 | With a tile wider than 32 on a background wider than 32, the stamps at (0, 0) and (32, 0) are both blitted and both cover pixel (32, 0). |
| TileCompositor.TallTileOverlaps | main.py:43-49 | With a tile taller than 32 on a background taller than 32, the stamps at (0, 0) and (0, 32) are both blitted and both cover pixel (0, 32). |

## Left out

- Pixel contents: image loading, `Surface` allocation, what `blit` copies, and the pixels of a flipped image. These are calls into the graphics library. The model keeps only geometry and which image is shown.
- TileCompositor.BackgroundStamps: the failure of `pygame.Surface((width, height))` (main.py:45) on a negative size is not modelled. For a negative width or height the program stops before the loops run. The model instead returns an empty stamp list, which has no counterpart in the program; `BackgroundCount`'s "zero stamps" for such sizes is likewise a model-only answer. `CreateBackground` has the same gap.
- Integer rounding of the sprite rectangle. The library's rectangle holds integer coordinates (main.py:57, 90, 127), and how it turns the 0.5-pixel moves into integers is not visible here. `x` and `bottom` are exact reals. With the integer rectangle, both the `bottom` values and the frame in which the ground clamp fires can differ from the model's. For example, a 0.5 move rounded to 0 leaves a player at rest unclamped every other frame. Within one frame, the velocity after gravity, the facing, the cursor, the image and `x` do not depend on this, given the state before the frame. The velocity at the end of the frame does depend on it, because the clamp resets it to 0.
- The rectangle's coordinates are bounded integers in the library. The model's positions are unbounded, so overflow of `x` after very long walks is not modelled.
- PlayerController.StepVertical: the exact `bottom` after a frame that does not land, and the landing condition `Lands`, hold only for exact addition. As a consequence, the one-frame "at rest on the ground stays at rest" fact it implies also holds only in exact arithmetic.
- PlayerController.OnlyClampGrounds: the frame in which the clamp fires is decided by `Lands`, which uses the exact sum.
- PlayerController.TakeOff: `bottom == old bottom - 9.5` holds only for exact addition; an integer rectangle cannot end there.
- PlayerController.SpawnCanJump: its `bottom` result holds only for exact addition, like that of `TakeOff`.
- PlayerRuns.FreeFall: `NeverLands` decides "never lands" from the exact sums, so with the integer rectangle the range of runs it covers may differ.
- The rectangle's placement from the image size in `Sprite.__init__` (`rect.center`). `NewPlayer` takes the resulting position as parameters.
- PlayerRuns.Run: requires a starting cursor in 0..4. That is the range the constructor sets and every frame keeps. Python indexing would also accept -5..-1, but no player ever has such a cursor.
- `Sprite.update`, `Sprite.draw` and `Box`: they have no logic beyond loading and blitting an image.
- `main`: the endless frame loop, display setup, event pumping, the clock tick at 60 frames per second, and reading the keyboard. The key state of each frame is the `Keys` parameter of `Step`, and a sequence of frames is the argument of `Run`.
- `logger_debug`: console output only. `hue_shift` is not part of this model.
- The second, near-empty window-loop script is not part of this model.

=== FILE: player_controller.dfy ===
/**
  The player sprite of the platformer prototype: its state record and the
  per-frame update, split into the phases the update runs in, in order.

  Positions and velocities are `real`s. The velocity's values are exact
  binary fractions, so its arithmetic is modelled exactly. Positions are an
  abstraction: the sprite's rectangle holds integers, and its rounding of
  the half-pixel moves is not modelled, so results about `bottom` and about
  the frame in which the ground clamp fires hold for exact addition only.
 */
module PlayerController {

  /** Horizontal distance moved per frame while a horizontal key is held. */
  const Speed: real := 5.0
  /** Added to the vertical velocity every frame. */
  const Gravity: real := 0.5
  /** Vertical velocity given by a jump (negative is upwards). */
  const JumpSpeed: real := -10.0
  /** Height of the viewport; the one ground line of the game. */
  const Height: real := 720.0
  /** Number of images in the walk cycle. */
  const WalkCycleLength: int := 5

  /** Which of the loaded images the sprite displays. */
  datatype Pose = Stand | JumpUp | JumpDown | Walk(frame: int)

  /** A displayed image: one of the loaded images, possibly mirrored horizontally. */
  datatype Image = Image(pose: Pose, mirrored: bool)

  /** The keys read once per frame. */
  datatype Keys = Keys(left: bool, right: bool, up: bool)

  /** The mutable state of the player sprite. `x` is the horizontal position of
      its rectangle and `bottom` the rectangle's bottom edge. */
  datatype Player = Player(
    animationIndex: int,
    facingLeft: bool,
    velocityY: real,
    onGround: bool,
    x: real,
    bottom: real,
    image: Image)

  /** The image as loaded from disk, not mirrored. */
  function Loaded(pose: Pose): Image {
    Image(pose, false)
  }

  /** Index bounds of a five-element list: negative indices count from the end. */
  predicate Indexable(i: int) {
    -WalkCycleLength <= i < WalkCycleLength
  }

  /** The invariant the constructor establishes and every frame keeps. */
  predicate ValidCursor(p: Player) {
    0 <= p.animationIndex < WalkCycleLength
  }

  /** A freshly constructed player, standing, with its rectangle placed by the caller. */
  function NewPlayer(x: real, bottom: real): (p: Player)
    ensures ValidCursor(p) && p.animationIndex == 0
    ensures !p.facingLeft && p.onGround && p.velocityY == 0.0
    ensures p.image.pose == Stand && !p.image.mirrored
    ensures p.x == x && p.bottom == bottom
  {
    Player(0, false, 0.0, true, x, bottom, Loaded(Stand))
  }

  /** A horizontal mirror of the image: same picture, orientation toggled. */
  function Flip(img: Image): (r: Image)
    ensures r.pose == img.pose
    ensures r.mirrored != img.mirrored
  {
    Image(img.pose, !img.mirrored)
  }

  /** Mirroring is its own inverse: two flips cancel, one always shows. */
  lemma FlipInvolution(img: Image)
    ensures Flip(Flip(img)) == img
    ensures Flip(img) != img
  {
  }

  /** Translates the sprite's rectangle; nothing else about the player changes. */
  function Move(p: Player, dx: real, dy: real): (r: Player)
    ensures r.x - p.x == dx && r.bottom - p.bottom == dy
    ensures r.(x := p.x, bottom := p.bottom) == p
  {
    p.(x := p.x + dx, bottom := p.bottom + dy)
  }

  /** Displays the current walk frame, mirrored when facing left, and advances
      the cursor circularly through the walk cycle. */
  function WalkAnimation(p: Player): (r: Player)
    requires Indexable(p.animationIndex)
    ensures r.image.pose == Walk(p.animationIndex % WalkCycleLength)
    ensures r.image.mirrored == p.facingLeft
    ensures 0 <= p.animationIndex ==>
              r.animationIndex == (p.animationIndex + 1) % WalkCycleLength
    ensures p.animationIndex < 0 ==> r.animationIndex == p.animationIndex + 1
    ensures r.(image := p.image, animationIndex := p.animationIndex) == p
  {
    var shown := Loaded(Walk(p.animationIndex % WalkCycleLength));
    var img := if p.facingLeft then Flip(shown) else shown;
    var next := if p.animationIndex < WalkCycleLength - 1 then p.animationIndex + 1 else 0;
    p.(image := img, animationIndex := next)
  }

  /** Walking through the whole cycle brings the cursor back to where it started. */
  lemma WalkCycleReturns(p: Player)
    requires ValidCursor(p)
    ensures var q := WalkAnimation(WalkAnimation(WalkAnimation(WalkAnimation(WalkAnimation(p)))));
            q.animationIndex == p.animationIndex
  {
  }

  // ---------------------------------------------------------------------------
  // The phases of one frame, in the order the update runs them. Later phases
  // overwrite what earlier ones chose, so the order is part of the behaviour.
  // ---------------------------------------------------------------------------

  /** Phase 1: left wins over right; with neither key the stand image is shown. */
  function Horizontal(p: Player, keys: Keys): (r: Player)
    requires keys.left || keys.right ==> Indexable(p.animationIndex)
    ensures r.x == p.x + DeltaX(keys)
    ensures r.facingLeft == (keys.left || (!keys.right && p.facingLeft))
    ensures Moving(keys) ==> r.image == Image(Walk(p.animationIndex % WalkCycleLength), keys.left)
    ensures !Moving(keys) ==> r.image == Loaded(Stand) && r.animationIndex == p.animationIndex
    ensures r.(x := p.x, facingLeft := p.facingLeft, image := p.image,
               animationIndex := p.animationIndex) == p
  {
    if keys.left then
      Move(WalkAnimation(p.(facingLeft := true)), -Speed, 0.0)
    else if keys.right then
      Move(WalkAnimation(p.(facingLeft := false)), Speed, 0.0)
    else
      p.(image := Loaded(Stand))
  }

  /** Phase 2: a jump starts only from the ground. */
  function Jump(p: Player, up: bool): (r: Player)
    ensures r.onGround == (p.onGround && !up)
    ensures r.velocityY == if up && p.onGround then JumpSpeed else p.velocityY
    ensures r.(velocityY := p.velocityY, onGround := p.onGround) == p
  {
    if up && p.onGround then p.(velocityY := JumpSpeed, onGround := false) else p
  }

  /** Phase 3: gravity is integrated every frame, then the sprite moves by the velocity. */
  function Fall(p: Player): (r: Player)
    ensures r.velocityY - p.velocityY == Gravity
    ensures r.bottom - p.bottom == r.velocityY
    ensures r.(velocityY := p.velocityY, bottom := p.bottom) == p
  {
    var v := p.velocityY + Gravity;
    Move(p.(velocityY := v), 0.0, v)
  }

  /** Phase 4: rising shows the jump-up image, sinking the jump-down image;
      a velocity of exactly zero keeps the image phase 1 chose. */
  function VerticalImage(p: Player): (r: Player)
    ensures p.velocityY < 0.0 ==> r.image == Loaded(JumpUp)
    ensures p.velocityY > 0.0 ==> r.image == Loaded(JumpDown)
    ensures p.velocityY == 0.0 ==> r == p
    ensures r.(image := p.image) == p
  {
    if p.velocityY < 0.0 then p.(image := Loaded(JumpUp))
    else if p.velocityY > 0.0 then p.(image := Loaded(JumpDown))
    else p
  }

  /** Phase 5: whatever image is displayed is mirrored once more when facing left. */
  function FaceImage(p: Player): (r: Player)
    ensures r.image.pose == p.image.pose
    ensures r.image.mirrored == (p.image.mirrored != p.facingLeft)
    ensures r.(image := p.image) == p
  {
    if p.facingLeft then p.(image := Flip(p.image)) else p
  }

  /** Phase 6: the only collision rule. Below the viewport, the sprite is put back
      on the ground line and comes to rest. */
  function GroundClamp(p: Player): (r: Player)
    ensures r.bottom <= Height && r.bottom <= p.bottom
    ensures p.bottom > Height ==> r.bottom == Height && r.velocityY == 0.0 && r.onGround
    ensures p.bottom <= Height ==> r == p
    ensures r.(bottom := p.bottom, velocityY := p.velocityY, onGround := p.onGround) == p
  {
    if p.bottom > Height then p.(bottom := Height, velocityY := 0.0, onGround := true) else p
  }

  /** The state right after gravity was applied, before images and the clamp. */
  function AfterGravity(p: Player, keys: Keys): (r: Player)
    requires keys.left || keys.right ==> Indexable(p.animationIndex)
    ensures r.velocityY == VelocityAfterGravity(p, keys)
    ensures r.bottom == p.bottom + VelocityAfterGravity(p, keys)
    ensures r.onGround == (p.onGround && !keys.up)
    ensures r.x == p.x + DeltaX(keys)
  {
    Fall(Jump(Horizontal(p, keys), keys.up))
  }

  /** One frame of the player update. */
  function Step(p: Player, keys: Keys): (r: Player)
    requires keys.left || keys.right ==> Indexable(p.animationIndex)
    ensures r.bottom <= Height
    ensures r.x == p.x + DeltaX(keys)
    ensures r.image.pose == PoseShown(p, keys)
    ensures r.image.mirrored == (r.facingLeft && !r.image.pose.Walk?)
    ensures r.onGround <==> Lands(p, keys) || (p.onGround && !keys.up)
    ensures ValidCursor(p) ==> ValidCursor(r)
  {
    GroundClamp(FaceImage(VerticalImage(AfterGravity(p, keys))))
  }

  // ---------------------------------------------------------------------------
  // An order-free description of one frame, stated only in terms of the
  // state before the frame and the keys.
  // ---------------------------------------------------------------------------

  /** A jump fires exactly when up is held while on the ground. */
  predicate JumpFires(p: Player, keys: Keys) {
    keys.up && p.onGround
  }

  /** True when left or right is held. */
  predicate Moving(keys: Keys) {
    keys.left || keys.right
  }

  /** The vertical velocity once gravity has been added in this frame. */
  function VelocityAfterGravity(p: Player, keys: Keys): real {
    (if JumpFires(p, keys) then JumpSpeed else p.velocityY) + Gravity
  }

  /** The sprite would end the frame below the ground line, so the clamp fires. */
  predicate Lands(p: Player, keys: Keys) {
    p.bottom + VelocityAfterGravity(p, keys) > Height
  }

  /** Signed horizontal displacement of one frame. */
  function DeltaX(keys: Keys): real {
    if keys.left then -Speed else if keys.right then Speed else 0.0
  }

  /** The pose displayed at the end of the frame. */
  function PoseShown(p: Player, keys: Keys): Pose {
    var v := VelocityAfterGravity(p, keys);
    if v < 0.0 then JumpUp
    else if v > 0.0 then JumpDown
    else if Moving(keys) then Walk(p.animationIndex % WalkCycleLength)
    else Stand
  }

  /** The intermediate state after gravity agrees with the order-free description. */
  lemma AfterGravityVelocity(p: Player, keys: Keys)
    requires keys.left || keys.right ==> Indexable(p.animationIndex)
    ensures AfterGravity(p, keys).velocityY == VelocityAfterGravity(p, keys)
    ensures AfterGravity(p, keys).bottom == p.bottom + VelocityAfterGravity(p, keys)
    ensures JumpFires(p, keys) ==> AfterGravity(p, keys).velocityY == JumpSpeed + Gravity
    ensures !JumpFires(p, keys) ==> AfterGravity(p, keys).velocityY == p.velocityY + Gravity
  {
  }

  /** Horizontal movement: left takes precedence, right alone moves right,
      neither key leaves position, facing and walk cursor unchanged. */
  lemma StepHorizontal(p: Player, keys: Keys)
    requires keys.left || keys.right ==> Indexable(p.animationIndex)
    ensures var r := Step(p, keys);
            && r.x == p.x + DeltaX(keys)
            && (keys.left ==> r.facingLeft)
            && (!keys.left && keys.right ==> !r.facingLeft)
            && (!Moving(keys) ==> r.facingLeft == p.facingLeft && r.animationIndex == p.animationIndex)
            && (Moving(keys) && 0 <= p.animationIndex ==>
                  r.animationIndex == (p.animationIndex + 1) % WalkCycleLength)
  {
  }

  /** Holding right changes nothing while left is held. */
  lemma LeftTakesPrecedence(p: Player, up: bool)
    requires Indexable(p.animationIndex)
    ensures Step(p, Keys(true, true, up)) == Step(p, Keys(true, false, up))
  {
  }

  /** The cursor invariant is kept by every frame. */
  lemma StepKeepsCursor(p: Player, keys: Keys)
    requires ValidCursor(p)
    ensures ValidCursor(Step(p, keys))
  {
  }

  /** Vertical motion: either the clamp fires and the player rests on the ground
      line, or the frame ends with exactly the velocity and height gravity gave. */
  lemma StepVertical(p: Player, keys: Keys)
    requires keys.left || keys.right ==> Indexable(p.animationIndex)
    ensures var r := Step(p, keys);
            && r.bottom <= Height
            && (Lands(p, keys) ==> r.bottom == Height && r.velocityY == 0.0 && r.onGround)
            && (!Lands(p, keys) ==>
                  && r.velocityY == VelocityAfterGravity(p, keys)
                  && r.bottom == p.bottom + VelocityAfterGravity(p, keys)
                  && r.onGround == (p.onGround && !JumpFires(p, keys)))
  {
    AfterGravityVelocity(p, keys);
  }

  /** The clamp is the only way onto the ground. */
  lemma OnlyClampGrounds(p: Player, keys: Keys)
    requires keys.left || keys.right ==> Indexable(p.animationIndex)
    ensures Step(p, keys).onGround && !p.onGround ==> Lands(p, keys)
    ensures Step(p, keys).onGround <==> Lands(p, keys) || (p.onGround && !keys.up)
  {
    StepVertical(p, keys);
  }

  /** A jump from the ground line or above lifts off: the clamp cannot fire in
      the take-off frame, and the frame ends rising at jump speed plus gravity. */
  lemma TakeOff(p: Player, keys: Keys)
    requires keys.left || keys.right ==> Indexable(p.animationIndex)
    requires JumpFires(p, keys) && p.bottom <= Height
    ensures var r := Step(p, keys);
            && !Lands(p, keys)
            && r.velocityY == -9.5
            && r.bottom == p.bottom - 9.5
            && !r.onGround
            && r.image == Image(JumpUp, r.facingLeft)
  {
    StepVertical(p, keys);
    StepImage(p, keys);
  }

  /** Holding up in the air has no effect at all on the frame. */
  lemma UpInAirIgnored(p: Player, keys: Keys)
    requires keys.left || keys.right ==> Indexable(p.animationIndex)
    requires !p.onGround
    ensures Step(p, keys.(up := true)) == Step(p, keys.(up := false))
  {
  }

  /** Image selection: the sign of the velocity after gravity and before the
      clamp decides; zero keeps the horizontal choice. Stand and jump images
      are mirrored exactly when facing left; a walk frame never is, because
      walking left flips it twice. */
  lemma StepImage(p: Player, keys: Keys)
    requires keys.left || keys.right ==> Indexable(p.animationIndex)
    ensures var r := Step(p, keys);
            && r.image.pose == PoseShown(p, keys)
            && (!r.image.pose.Walk? ==> r.image.mirrored == r.facingLeft)
            && (r.image.pose.Walk? ==> !r.image.mirrored)
  {
    AfterGravityVelocity(p, keys);
  }

  /** A player that is not moving up and does not jump shows the jump-down image,
      even when it ends the frame resting on the ground. */
  lemma RestingShowsJumpDown(p: Player, keys: Keys)
    requires keys.left || keys.right ==> Indexable(p.animationIndex)
    requires p.velocityY >= 0.0 && !JumpFires(p, keys)
    ensures Step(p, keys).image == Image(JumpDown, Step(p, keys).facingLeft)
  {
    StepImage(p, keys);
  }

  /** Walking left never shows a mirrored walk frame: the two flips cancel. */
  lemma WalkingLeftUnmirrored(p: Player, keys: Keys)
    requires Indexable(p.animationIndex)
    requires keys.left && VelocityAfterGravity(p, keys) == 0.0
    ensures Step(p, keys).facingLeft
    ensures Step(p, keys).image == Image(Walk(p.animationIndex % WalkCycleLength), false)
  {
    StepImage(p, keys);
  }

  /** The constructor marks the player as on the ground wherever it is placed,
      so the very first frame can start a jump in mid-air. */
  lemma SpawnCanJump(x: real, bottom: real, left: bool, right: bool)
    requires bottom <= Height
    ensures Step(NewPlayer(x, bottom), Keys(left, right, true)).velocityY == JumpSpeed + Gravity
    ensures Step(NewPlayer(x, bottom), Keys(left, right, true)).bottom == bottom + JumpSpeed + Gravity
  {
    TakeOff(NewPlayer(x, bottom), Keys(left, right, true));
  }
}

=== FILE: player_runs.dfy ===
/**
  Sequences of frames: the player update applied once per frame to the keys
  held in that frame, and what stays true over any number of frames.
 */
module PlayerRuns {
  import opened PlayerController

  /** The state after updating once per element of `frames`, in order. */
  function Run(p: Player, frames: seq<Keys>): (r: Player)
    requires ValidCursor(p)
    ensures ValidCursor(r)
    ensures |frames| > 0 ==> r.bottom <= Height
    decreases |frames|
  {
    if |frames| == 0 then p
    else
      StepKeepsCursor(p, frames[0]);
      StepVertical(p, frames[0]);
      Run(Step(p, frames[0]), frames[1..])
  }

  /** Number of frames in which a horizontal key is held. */
  function MovingFrames(frames: seq<Keys>): nat {
    if |frames| == 0 then 0
    else (if Moving(frames[0]) then 1 else 0) + MovingFrames(frames[1..])
  }

  /** Total horizontal displacement the keys ask for. */
  function Displacement(frames: seq<Keys>): real {
    if |frames| == 0 then 0.0 else DeltaX(frames[0]) + Displacement(frames[1..])
  }

  /** No frame of the run ends with the ground clamp firing. */
  predicate NeverLands(p: Player, frames: seq<Keys>)
    requires ValidCursor(p)
    decreases |frames|
  {
    |frames| == 0 ||
    (!Lands(p, frames[0]) && (StepKeepsCursor(p, frames[0]); NeverLands(Step(p, frames[0]), frames[1..])))
  }

  /** The walk cursor advances by one per frame with a horizontal key held,
      modulo the walk-cycle length, and never leaves the cycle. */
  lemma {:induction false} RunCursor(p: Player, frames: seq<Keys>)
    requires ValidCursor(p)
    ensures Run(p, frames).animationIndex
            == (p.animationIndex + MovingFrames(frames)) % WalkCycleLength
    decreases |frames|
  {
    if |frames| > 0 {
      var q := Step(p, frames[0]);
      StepKeepsCursor(p, frames[0]);
      StepHorizontal(p, frames[0]);
      RunCursor(q, frames[1..]);
    }
  }

  /** The horizontal position is the sum of the per-frame displacements. */
  lemma {:induction false} RunPosition(p: Player, frames: seq<Keys>)
    requires ValidCursor(p)
    ensures Run(p, frames).x == p.x + Displacement(frames)
    decreases |frames|
  {
    if |frames| > 0 {
      StepKeepsCursor(p, frames[0]);
      StepHorizontal(p, frames[0]);
      RunPosition(Step(p, frames[0]), frames[1..]);
    }
  }

  /** Free fall: a player in the air that does not touch the ground line gains
      exactly `Gravity` of downward velocity per frame, whatever keys are held,
      and stays in the air. */
  lemma {:induction false} FreeFall(p: Player, frames: seq<Keys>)
    requires ValidCursor(p)
    requires !p.onGround && NeverLands(p, frames)
    ensures Run(p, frames).velocityY == p.velocityY + Gravity * (|frames| as real)
    ensures !Run(p, frames).onGround
    decreases |frames|
  {
    if |frames| > 0 {
      StepKeepsCursor(p, frames[0]);
      StepVertical(p, frames[0]);
      FreeFall(Step(p, frames[0]), frames[1..]);
    }
  }
}

=== FILE: tile_compositor.dfy ===
/**
  The background compositor: the source rectangle of a tile inside a tileset,
  and the positions at which a tile is stamped to fill a background surface.
  Pixel contents are not modelled; only the geometry is.
 */
module TileCompositor {

  /** Horizontal step of the background grid. */
  const TileWidth: int := 32
  /** Vertical step of the background grid. */
  const TileHeight: int := 32

  /** A rectangle as (left, top, width, height). */
  datatype Rect = Rect(left: int, top: int, width: int, height: int)

  /** A position at which the tile's top-left corner is stamped. */
  datatype Stamp = Stamp(x: int, y: int)

  /** A pixel lies inside a rectangle. */
  predicate Contains(r: Rect, px: int, py: int) {
    r.left <= px < r.left + r.width && r.top <= py < r.top + r.height
  }

  /** Multiplying by a positive number keeps order. */
  lemma MulMono(w: int, a: int, b: int)
    requires w > 0 && a <= b
    ensures w * a <= w * b
  {
    assert w * b - w * a == w * (b - a);
  }

  /** Euclidean division is characterised by the interval it picks. */
  lemma DivInterval(a: int, w: int, q: int)
    requires w > 0
    ensures (w * q <= a < w * q + w) <==> a / w == q
  {
    var d := a / w;
    assert a == w * d + a % w && 0 <= a % w < w;
    if w * q <= a < w * q + w {
      if d < q {
        MulMono(w, d + 1, q);
        assert false;
      } else if d > q {
        MulMono(w, q + 1, d);
        assert false;
      }
    }
  }

  /** The region of the tileset that holds tile (x, y) of a grid of w-by-h tiles. */
  function SourceRect(x: int, y: int, w: int, h: int): (r: Rect)
    ensures r.width == w && r.height == h
  {
    Rect(x * w, y * h, w, h)
  }

  /** Tile (x, y) is exactly the set of pixels whose grid coordinates are (x, y):
      tiles of a grid neither overlap nor leave gaps. */
  lemma SourceRectPixels(x: int, y: int, w: int, h: int, px: int, py: int)
    requires w > 0 && h > 0
    ensures Contains(SourceRect(x, y, w, h), px, py) <==> px / w == x && py / h == y
  {
    DivInterval(px, w, x);
    DivInterval(py, h, y);
  }

  /** The grid coordinates of a tile are recovered from its source rectangle. */
  lemma SourceRectRoundTrip(x: int, y: int, w: int, h: int)
    requires w > 0 && h > 0
    ensures SourceRect(x, y, w, h).left / w == x
    ensures SourceRect(x, y, w, h).top / h == y
  {
    SourceRectPixels(x, y, w, h, x * w, y * h);
  }

  /** Python's `range(start, stop, step)` for a positive step. */
  function PyRange(start: int, stop: int, step: int): (r: seq<int>)
    requires step > 0
    ensures |r| == CeilDiv(stop - start, step)
    ensures |r| > 0 ==> r[0] == start
    decreases stop - start
  {
    if start >= stop then []
    else
      CeilDivStep(stop - start, step);
      [start] + PyRange(start + step, stop, step)
  }

  /** Dropping the first element of a non-empty range starts it one step later. */
  lemma PyRangeTail(start: int, stop: int, step: int)
    requires step > 0 && start < stop
    ensures PyRange(start, stop, step)[1..] == PyRange(start + step, stop, step)
  {
  }

  /** Number of multiples of `step` in [0, n): the ceiling of n / step, or zero. */
  function CeilDiv(n: int, step: int): nat
    requires step > 0
  {
    if n <= 0 then 0 else (n + step - 1) / step
  }

  /** One fewer element once the start has moved up one step. */
  lemma CeilDivStep(n: int, step: int)
    requires step > 0 && n > 0
    ensures CeilDiv(n, step) == 1 + CeilDiv(n - step, step)
  {
    if n - step <= 0 {
      DivInterval(n + step - 1, step, 1);
    } else {
      var q := (n - 1) / step;
      DivInterval(n - 1, step, q);
      assert step * (q + 1) == step * q + step;
      DivInterval(n + step - 1, step, q + 1);
    }
  }

  /** The elements of a range are the start plus successive multiples of the step. */
  lemma {:induction false} PyRangeShape(start: int, stop: int, step: int)
    requires step > 0
    ensures |PyRange(start, stop, step)| == CeilDiv(stop - start, step)
    ensures forall i :: 0 <= i < |PyRange(start, stop, step)| ==>
              PyRange(start, stop, step)[i] == start + i * step
    decreases stop - start
  {
    if start < stop {
      var rest := PyRange(start + step, stop, step);
      PyRangeShape(start + step, stop, step);
      CeilDivStep(stop - start, step);
      forall i | 1 <= i < |PyRange(start, stop, step)|
        ensures PyRange(start, stop, step)[i] == start + i * step
      {
        assert PyRange(start, stop, step)[i] == rest[i - 1];
        assert start + step + (i - 1) * step == start + i * step;
      }
    }
  }

  /** A value occurs in a range exactly when it lies in [start, stop) on the step grid. */
  lemma PyRangeMembers(start: int, stop: int, step: int, v: int)
    requires step > 0
    ensures v in PyRange(start, stop, step)
            <==> start <= v < stop && (v - start) % step == 0
  {
    PyRangeShape(start, stop, step);
    if v in PyRange(start, stop, step) {
      RangeMemberOnGrid(start, stop, step, v);
    }
    if start <= v < stop && (v - start) % step == 0 {
      GridPointInRange(start, stop, step, v);
    }
  }

  lemma RangeMemberOnGrid(start: int, stop: int, step: int, v: int)
    requires step > 0
    requires v in PyRange(start, stop, step)
    ensures start <= v < stop && (v - start) % step == 0
  {
    var r := PyRange(start, stop, step);
    PyRangeShape(start, stop, step);
    var i :| 0 <= i < |r| && r[i] == v;
    assert r[i] == start + i * step;
    assert v - start == step * i;
    DivInterval(v - start, step, i);
    assert (v - start) % step == (v - start) - step * ((v - start) / step);
    MulMono(step, 0, i);
    RangeBound(start, stop, step, i);
  }

  lemma GridPointInRange(start: int, stop: int, step: int, v: int)
    requires step > 0
    requires start <= v < stop && (v - start) % step == 0
    ensures v in PyRange(start, stop, step)
  {
    var r := PyRange(start, stop, step);
    PyRangeShape(start, stop, step);
    var i := (v - start) / step;
    assert v - start == step * i + (v - start) % step;
    assert v - start == step * i;
    if i < 0 {
      MulMono(step, i, -1);
      assert false;
    }
    RangeIndexInBounds(start, stop, step, i);
    assert r[i] == v;
  }

  /** Every element of a range is below its stop. */
  lemma RangeBound(start: int, stop: int, step: int, i: int)
    requires step > 0
    requires 0 <= i < CeilDiv(stop - start, step)
    ensures start + i * step < stop
  {
    var n := stop - start;
    var c := CeilDiv(n, step);
    DivInterval(n + step - 1, step, c);
    MulMono(step, i + 1, c);
  }

  /** A grid point below the stop has an index inside the range. */
  lemma RangeIndexInBounds(start: int, stop: int, step: int, i: int)
    requires step > 0 && i >= 0
    requires start + i * step < stop
    ensures i < CeilDiv(stop - start, step)
  {
    var n := stop - start;
    MulMono(step, 0, i);
    var c := CeilDiv(n, step);
    DivInterval(n + step - 1, step, c);
    if i >= c {
      MulMono(step, c, i);
      assert false;
    }
  }

  /** The stamps of one row, left to right. */
  function Row(xs: seq<int>, y: int): seq<Stamp>
    decreases |xs|
  {
    if |xs| == 0 then [] else [Stamp(xs[0], y)] + Row(xs[1..], y)
  }

  /** Stamps for every row in order: the outer loop runs over `ys`. */
  function Rows(xs: seq<int>, ys: seq<int>): seq<Stamp>
    decreases |ys|
  {
    if |ys| == 0 then [] else Row(xs, ys[0]) + Rows(xs, ys[1..])
  }

  /** The stamp positions `create_background` blits the tile at, in blit order.
      The grid step is the module constant, not the size of the tile. */
  function BackgroundStamps(width: int, height: int): (r: seq<Stamp>)
    ensures |r| == CeilDiv(width, TileWidth) * CeilDiv(height, TileHeight)
  {
    RowsLength(PyRange(0, width, TileWidth), PyRange(0, height, TileHeight));
    Rows(PyRange(0, width, TileWidth), PyRange(0, height, TileHeight))
  }

  /** `create_background` as the nested loops it is: rows top to bottom,
      each row left to right, one stamp per blit. */
  method CreateBackground(width: int, height: int) returns (stamps: seq<Stamp>)
    ensures stamps == BackgroundStamps(width, height)
  {
    ghost var xs := PyRange(0, width, TileWidth);
    ghost var all := Rows(xs, PyRange(0, height, TileHeight));
    stamps := [];
    var y := 0;
    while y < height
      invariant all == stamps + Rows(xs, PyRange(y, height, TileHeight))
      decreases height - y
    {
      ghost var below := Rows(xs, PyRange(y + TileHeight, height, TileHeight));
      RowsUnfold(xs, y, height);
      var x := 0;
      while x < width
        invariant all == stamps + Row(PyRange(x, width, TileWidth), y) + below
        decreases width - x
      {
        ghost var rest := Row(PyRange(x + TileWidth, width, TileWidth), y);
        RowUnfold(x, width, y);
        assert stamps + ([Stamp(x, y)] + rest) + below == (stamps + [Stamp(x, y)]) + rest + below;
        stamps := stamps + [Stamp(x, y)];
        x := x + TileWidth;
      }
      assert Row(PyRange(x, width, TileWidth), y) == [];
      assert stamps + [] + below == stamps + below;
      y := y + TileHeight;
    }
  }

  /** One iteration of the outer loop: the rows from y on are row y, then the rest. */
  lemma RowsUnfold(xs: seq<int>, y: int, height: int)
    requires y < height
    ensures Rows(xs, PyRange(y, height, TileHeight))
            == Row(xs, y) + Rows(xs, PyRange(y + TileHeight, height, TileHeight))
  {
    PyRangeTail(y, height, TileHeight);
  }

  /** One iteration of the inner loop: the row from x on is stamp (x, y), then the rest. */
  lemma RowUnfold(x: int, width: int, y: int)
    requires x < width
    ensures Row(PyRange(x, width, TileWidth), y)
            == [Stamp(x, y)] + Row(PyRange(x + TileWidth, width, TileWidth), y)
  {
    PyRangeTail(x, width, TileWidth);
  }

  /** A row has one stamp per column, at that column, on the row's line. */
  lemma {:induction false} RowShape(xs: seq<int>, y: int)
    ensures |Row(xs, y)| == |xs|
    ensures forall j :: 0 <= j < |xs| ==> Row(xs, y)[j] == Stamp(xs[j], y)
    decreases |xs|
  {
    if |xs| > 0 {
      RowShape(xs[1..], y);
    }
  }

  /** Division by n of an index one full row further on. */
  lemma DivModShift(k: int, n: int)
    requires n > 0
    ensures (k + n) / n == k / n + 1 && (k + n) % n == k % n
  {
    DivInterval(k, n, k / n);
    assert n * (k / n + 1) == n * (k / n) + n;
    DivInterval(k + n, n, k / n + 1);
    assert (k + n) % n == (k + n) - n * ((k + n) / n);
    assert k % n == k - n * (k / n);
  }

  /** Every row contributes one stamp per column. */
  lemma {:induction false} RowsLength(xs: seq<int>, ys: seq<int>)
    ensures |Rows(xs, ys)| == |ys| * |xs|
    decreases |ys|
  {
    if |ys| > 0 {
      RowShape(xs, ys[0]);
      RowsLength(xs, ys[1..]);
      assert |ys| * |xs| == |xs| + (|ys| - 1) * |xs|;
    }
  }

  /** Row-major layout: stamp i sits in column i mod |xs| of row i div |xs|. */
  lemma {:induction false} RowsAt(xs: seq<int>, ys: seq<int>, i: int)
    requires |xs| > 0 && 0 <= i < |Rows(xs, ys)|
    ensures 0 <= i % |xs| < |xs| && 0 <= i / |xs| < |ys|
    ensures Rows(xs, ys)[i] == Stamp(xs[i % |xs|], ys[i / |xs|])
    decreases |ys|
  {
    var n := |xs|;
    var first, rest := Row(xs, ys[0]), Rows(xs, ys[1..]);
    RowShape(xs, ys[0]);
    assert Rows(xs, ys) == first + rest;
    if i < n {
      DivInterval(i, n, 0);
      assert i % n == i;
      assert Rows(xs, ys)[i] == first[i];
    } else {
      var k := i - n;
      assert Rows(xs, ys)[i] == rest[k];
      RowsAt(xs, ys[1..], k);
      DivModShift(k, n);
      assert i / n == k / n + 1 && i % n == k % n;
    }
  }

  /** A stamp occurs exactly when its column and its row both occur. */
  lemma {:induction false} RowsMembers(xs: seq<int>, ys: seq<int>, s: Stamp)
    ensures s in Rows(xs, ys) <==> s.x in xs && s.y in ys
    decreases |ys|
  {
    if |ys| > 0 {
      RowShape(xs, ys[0]);
      RowsMembers(xs, ys[1..], s);
      assert ys == [ys[0]] + ys[1..];
      if s in Row(xs, ys[0]) {
        var j :| 0 <= j < |xs| && Row(xs, ys[0])[j] == s;
      }
      if s.x in xs && s.y == ys[0] {
        var j :| 0 <= j < |xs| && xs[j] == s.x;
        assert Row(xs, ys[0])[j] == s;
      }
    }
  }

  /** Strictly increasing, so no value repeats. */
  predicate Increasing(xs: seq<int>) {
    forall i, j :: 0 <= i < j < |xs| ==> xs[i] < xs[j]
  }

  /** Stamp a comes strictly before stamp b in row-major order. */
  predicate Before(a: Stamp, b: Stamp) {
    a.y < b.y || (a.y == b.y && a.x < b.x)
  }

  lemma {:induction false} PyRangeIncreasing(start: int, stop: int, step: int)
    requires step > 0
    ensures Increasing(PyRange(start, stop, step))
  {
    PyRangeShape(start, stop, step);
    var r := PyRange(start, stop, step);
    forall i, j | 0 <= i < j < |r|
      ensures r[i] < r[j]
    {
      assert r[i] == start + i * step && r[j] == start + j * step;
      MulMono(step, i + 1, j);
      assert step * (i + 1) == i * step + step;
    }
  }

  /** With increasing columns and rows, the stamps come out in strict
      row-major order: top row first, each row left to right. */
  lemma {:induction false} RowsOrdered(xs: seq<int>, ys: seq<int>)
    requires Increasing(xs) && Increasing(ys)
    ensures forall i, j :: 0 <= i < j < |Rows(xs, ys)| ==> Before(Rows(xs, ys)[i], Rows(xs, ys)[j])
    decreases |ys|
  {
    if |ys| > 0 {
      var first, rest := Row(xs, ys[0]), Rows(xs, ys[1..]);
      RowShape(xs, ys[0]);
      RowsOrdered(xs, ys[1..]);
      var r := Rows(xs, ys);
      forall i, j | 0 <= i < j < |r|
        ensures Before(r[i], r[j])
      {
        if j >= |first| {
          assert r[j] == rest[j - |first|];
          assert r[j] in rest;
          RowsMembers(xs, ys[1..], r[j]);
          var k :| 0 <= k < |ys[1..]| && ys[1..][k] == r[j].y;
          assert ys[k + 1] == r[j].y;
          if i >= |first| {
            assert r[i] == rest[i - |first|];
          }
        }
      }
    }
  }

  /** The background receives ceil(width/32) * ceil(height/32) stamps. */
  lemma BackgroundCount(width: int, height: int)
    ensures |BackgroundStamps(width, height)|
            == CeilDiv(width, TileWidth) * CeilDiv(height, TileHeight)
  {
    PyRangeShape(0, width, TileWidth);
    PyRangeShape(0, height, TileHeight);
    RowsLength(PyRange(0, width, TileWidth), PyRange(0, height, TileHeight));
  }

  /** Stamp i is at column i mod the column count and row i div the column count. */
  lemma BackgroundAt(width: int, height: int, i: int)
    requires 0 <= i < |BackgroundStamps(width, height)|
    ensures CeilDiv(width, TileWidth) > 0
    ensures BackgroundStamps(width, height)[i]
            == Stamp(TileWidth * (i % CeilDiv(width, TileWidth)),
                     TileHeight * (i / CeilDiv(width, TileWidth)))
  {
    var xs, ys := PyRange(0, width, TileWidth), PyRange(0, height, TileHeight);
    PyRangeShape(0, width, TileWidth);
    PyRangeShape(0, height, TileHeight);
    if |xs| == 0 {
      EmptyColumns(ys);
      assert false;
    }
    var cols := |xs|;
    RowsAt(xs, ys, i);
    var c, w := i % cols, i / cols;
    assert xs[c] == TileWidth * c;
    assert ys[w] == TileHeight * w;
  }

  lemma {:induction false} EmptyColumns(ys: seq<int>)
    ensures Rows([], ys) == []
    decreases |ys|
  {
    if |ys| > 0 {
      EmptyColumns(ys[1..]);
    }
  }

  /** A tile is stamped at (x, y) exactly when both lie inside the background
      and on the 32-pixel grid. */
  lemma BackgroundMembers(width: int, height: int, s: Stamp)
    ensures s in BackgroundStamps(width, height)
            <==> && 0 <= s.x < width && s.x % TileWidth == 0
                 && 0 <= s.y < height && s.y % TileHeight == 0
  {
    RowsMembers(PyRange(0, width, TileWidth), PyRange(0, height, TileHeight), s);
    PyRangeMembers(0, width, TileWidth, s.x);
    PyRangeMembers(0, height, TileHeight, s.y);
  }

  /** The stamps are blitted in strict row-major order, so none repeats. */
  lemma BackgroundOrdered(width: int, height: int)
    ensures var r := BackgroundStamps(width, height);
            forall i, j :: 0 <= i < j < |r| ==> Before(r[i], r[j])
  {
    PyRangeIncreasing(0, width, TileWidth);
    PyRangeIncreasing(0, height, TileHeight);
    RowsOrdered(PyRange(0, width, TileWidth), PyRange(0, height, TileHeight));
  }

  /** The region a tile of the given size covers when stamped at s. */
  function StampArea(s: Stamp, tileW: int, tileH: int): Rect {
    Rect(s.x, s.y, tileW, tileH)
  }

  /** The stamp whose grid cell holds a pixel. */
  function CellOf(px: int, py: int): Stamp {
    Stamp(px - px % TileWidth, py - py % TileHeight)
  }

  /** A tile at least as large as the grid step leaves no pixel of the
      background uncovered (a larger tile makes neighbouring stamps overlap,
      and the later blit wins). */
  lemma NoGaps(width: int, height: int, tileW: int, tileH: int, px: int, py: int)
    requires tileW >= TileWidth && tileH >= TileHeight
    requires 0 <= px < width && 0 <= py < height
    ensures CellOf(px, py) in BackgroundStamps(width, height)
    ensures Contains(StampArea(CellOf(px, py), tileW, tileH), px, py)
  {
    BackgroundMembers(width, height, CellOf(px, py));
  }

  /** A tile of exactly the grid size covers each pixel by exactly one stamp. */
  lemma ExactTiling(width: int, height: int, px: int, py: int, s: Stamp)
    requires s in BackgroundStamps(width, height)
    ensures Contains(StampArea(s, TileWidth, TileHeight), px, py) <==> s == CellOf(px, py)
  {
    BackgroundMembers(width, height, s);
  }

  /** A tile narrower than the grid step leaves a gap: no stamp covers any
      pixel of column `tileW`, the column right after the first tile. */
  lemma NarrowTileLeavesGap(width: int, height: int, tileW: int, tileH: int, s: Stamp, py: int)
    requires 0 <= tileW < TileWidth && tileW < width && 0 <= py < height
    requires s in BackgroundStamps(width, height)
    ensures !Contains(StampArea(s, tileW, tileH), tileW, py)
  {
    BackgroundMembers(width, height, s);
  }

  /** A tile shorter than the grid step leaves a gap too: no stamp covers any
      pixel of row `tileH`, the row right below the first tile. */
  lemma ShortTileLeavesGap(width: int, height: int, tileW: int, tileH: int, s: Stamp, px: int)
    requires 0 <= tileH < TileHeight && tileH < height && 0 <= px < width
    requires s in BackgroundStamps(width, height)
    ensures !Contains(StampArea(s, tileW, tileH), px, tileH)
  {
    BackgroundMembers(width, height, s);
  }

  /** A tile wider than the grid step makes neighbouring stamps overlap: the
      first pixel of the second column is covered by the first two stamps. */
  lemma WideTileOverlaps(width: int, height: int, tileW: int, tileH: int)
    requires tileW > TileWidth && tileH > 0
    requires width > TileWidth && height > 0
    ensures Stamp(0, 0) in BackgroundStamps(width, height)
    ensures Stamp(TileWidth, 0) in BackgroundStamps(width, height)
    ensures Contains(StampArea(Stamp(0, 0), tileW, tileH), TileWidth, 0)
    ensures Contains(StampArea(Stamp(TileWidth, 0), tileW, tileH), TileWidth, 0)
  {
    BackgroundMembers(width, height, Stamp(0, 0));
    BackgroundMembers(width, height, Stamp(TileWidth, 0));
  }

  /** A tile taller than the grid step makes vertically neighbouring stamps
      overlap: the first pixel of the second row is covered by two stamps. */
  lemma TallTileOverlaps(width: int, height: int, tileW: int, tileH: int)
    requires tileH > TileHeight && tileW > 0
    requires height > TileHeight && width > 0
    ensures Stamp(0, 0) in BackgroundStamps(width, height)
    ensures Stamp(0, TileHeight) in BackgroundStamps(width, height)
    ensures Contains(StampArea(Stamp(0, 0), tileW, tileH), 0, TileHeight)
    ensures Contains(StampArea(Stamp(0, TileHeight), tileW, tileH), 0, TileHeight)
  {
    BackgroundMembers(width, height, Stamp(0, 0));
    BackgroundMembers(width, height, Stamp(0, TileHeight));
  }
}
